=== FILE: README.md ===
# MIDI drum input: a Dafny model

This project models the input side of the drum-chart front end's MIDI test page:

- the static table that maps a MIDI note number to one of eight drum categories;
- the MIDI input hook, which decodes message bytes into a last-note record, lists the input devices, and attaches its message handler to the selected input;
- the test page's bookkeeping: a log of received notes capped at 20 entries, a set of lit drum categories, and the timers that unlight them, plus the render rules for which drum element is lit and what each log row says.

The platform callbacks become explicit events:

- access granted or a hot-plug change: `PortsChanged`;
- the user picking a device: `Choose`;
- a message on an input port: `Message`;
- a highlight timer firing: `TimerFires`.

Every operation is a pure function over immutable datatypes.

Modules follow the source files:

- `MidiMapping` covers `lib/midi-mapping.ts`.
- `MidiDecode`, `DeviceList`, `DeviceSelection` and `MidiInput` cover `lib/hooks/useMidiInput.ts`.
- `MidiTestPage` and `MidiTestSession` cover `app/midi-test/page.tsx`.
- `Wrappers` holds `Option`. `Js` holds the JavaScript truthiness and `||` rules the source relies on. An empty string is falsy, so an empty selected id goes down the auto-select branch. An empty port name also falls back to `Unknown Device`.

Two consequences of the code are worth stating:

- Selecting an id that names no input detaches the previous input's handler and leaves no input current, rather than keeping the old listener (`DeviceSelection.UnknownSelectionDetaches`).
- The page keeps a set of lit categories, not a count of hits. An earlier hit's timer therefore unlights a category that a later hit re-lit, before the later hit's own 100 ms have passed (`MidiTestPage.EarlierTimerCutsLaterHit`).

Modelling choices:

- Message data is a sequence of bytes 0..255, like the platform's `Uint8Array`. A missing status byte shifts to command 0. A missing velocity fails `> 0`.
- Every highlight timer has the same 100 ms delay, so timers fire in the order they were set. They are kept as a FIFO queue of category names, and `TimerFires` fires the oldest one.
- The selection effect runs once after each change to its dependencies. It runs a second time if that first run changed the selected id (`DeviceSelection.Settle`). Settling is proved to reach a state the effect no longer changes.

## Model

| member | source | states |
|---|---|---|
| Js.Or | spotify-clonehero-next/lib/hooks/useMidiInput.ts:53 | JavaScript's `or` operator on a string-or-undefined value gives the value when it is a non-empty string and the fallback otherwise, the rule behind the device-name fallback, the lookup's fallback to null and the row label's fallback to `UNKNOWN` |
| MidiMapping.InstrumentFromMidi | spotify-clonehero-next/lib/midi-mapping.ts:5-33 | a note gets category i exactly when it is one of the General MIDI keys folded onto i (35-36 kick; 37, 38, 40 snare; 41, 43 floor-tom; 45, 47 mid-tom; 48, 50 high-tom; 42, 44, 46 hihat; 49, 55, 57 crash; 51, 52, 53, 59 ride); no category exactly when the note is not a table key; every mapped note lies in 35..59 |
| MidiMapping.NamesAreTruthy | spotify-clonehero-next/lib/midi-mapping.ts:32 | every category name is a non-empty string, so the fallback to null never discards a table entry |
| MidiMapping.NameInjective | spotify-clonehero-next/lib/midi-mapping.ts:5-27 | distinct categories have distinct names |
| MidiMapping.NoPedalHiHatCategory | spotify-clonehero-next/lib/midi-mapping.ts:18 | the pedal hi-hat key 44 maps to hihat, and no category is named `pedal-hihat` or `hihat-pedal` |
| MidiMapping.UnmappedNotes | spotify-clonehero-next/lib/midi-mapping.ts:5-33 | notes below 35, above 59, and the gaps 39, 54, 56, 58 have no category |
| MidiMapping.TableKeys | spotify-clonehero-next/lib/midi-mapping.ts:5-27 | the table's keys are exactly the union of the per-category key sets, and exactly the 21 listed notes |
| MidiMapping.CategoriesDisjoint | spotify-clonehero-next/lib/midi-mapping.ts:5-27 | no key belongs to two categories |
| MidiMapping.TableSize | spotify-clonehero-next/lib/midi-mapping.ts:5-27 | the table has exactly 21 keys |
| MidiDecode.Command | spotify-clonehero-next/lib/hooks/useMidiInput.ts:28-30 | the command is the status byte's upper nibble, in 0..15; a missing status byte gives 0 |
| MidiDecode.Decode | spotify-clonehero-next/lib/hooks/useMidiInput.ts:27-44 | a record is produced exactly for messages of at least three bytes whose status is 0x90..0x9F and whose velocity is non-zero; it carries command 9, data bytes 1 and 2 as note and velocity, and the event's timestamp |
| MidiDecode.OnMidiMessage | spotify-clonehero-next/lib/hooks/useMidiInput.ts:27-44 | the last note changes only to a record from a message of at least three bytes with a Note On status byte (0x90..0x9F), carrying its note and positive velocity; every such message with non-zero velocity replaces the last note with its record; short messages, Note Offs and zero-velocity Note Ons leave it unchanged |
| MidiDecode.DecodeNoteOn | spotify-clonehero-next/lib/hooks/useMidiInput.ts:36-43 | an encoded Note On on any channel decodes back to its note and velocity when the velocity is positive, and to nothing when it is 0 |
| MidiDecode.NoteOffNeverDecodes | spotify-clonehero-next/lib/hooks/useMidiInput.ts:36 | a Note Off never decodes, whatever its velocity and trailing bytes |
| MidiDecode.DecodeInverse | spotify-clonehero-next/lib/hooks/useMidiInput.ts:28-43 | every decoded record comes from a Note On on some channel whose first three bytes carry its note and velocity |
| MidiDecode.ChannelIrrelevant | spotify-clonehero-next/lib/hooks/useMidiInput.ts:30-32 | two messages that differ only in the channel nibble decode alike |
| DeviceList.DeviceOf | spotify-clonehero-next/lib/hooks/useMidiInput.ts:51-55 | a device copies the port's id and manufacturer; its name is the port's name when that is non-empty, otherwise `Unknown Device`, and is never empty |
| DeviceList.DevicesOf | spotify-clonehero-next/lib/hooks/useMidiInput.ts:49-56 | one device per input, in iteration order, each built from the input at the same position |
| DeviceList.UpdateDevices | spotify-clonehero-next/lib/hooks/useMidiInput.ts:46-57 | without an access object the list is unchanged; otherwise the list built input by input equals the device list of the input map |
| DeviceSelection.Detach | spotify-clonehero-next/lib/hooks/useMidiInput.ts:100-103 | the current input loses the handler and the reference is cleared; nothing else changes |
| DeviceSelection.Step | spotify-clonehero-next/lib/hooks/useMidiInput.ts:96-119 | without access nothing changes; otherwise the previous input's handler is removed before any is added, only the new current input can gain one, and at most one input holds it; a selected known id becomes current and holds the handler; an unknown id leaves no input current; with nothing selected and non-empty lists the first input's id becomes the selection and nothing is attached; with nothing selected and an empty list the selection stays unset |
| DeviceSelection.StepIdempotent | spotify-clonehero-next/lib/hooks/useMidiInput.ts:96-119 | re-running the effect when the selection did not change has no further effect |
| DeviceSelection.Settle | spotify-clonehero-next/lib/hooks/useMidiInput.ts:96-119 | settling keeps at most one listener, and a current input is the selected one and exists in the input map; conversely a selected non-empty id that names an existing input ends up current and is the input holding the handler |
| DeviceSelection.SettleIsFixedPoint | spotify-clonehero-next/lib/hooks/useMidiInput.ts:96-119 | after settling, running the effect again changes nothing |
| DeviceSelection.AutoSelectsFirstDevice | spotify-clonehero-next/lib/hooks/useMidiInput.ts:111-118 | with nothing selected and a non-empty device list, settling selects the first device; when its id is non-empty it becomes current and is the only input holding the handler |
| DeviceSelection.UnknownSelectionDetaches | spotify-clonehero-next/lib/hooks/useMidiInput.ts:105-110 | selecting an id no input has leaves no input current and no input holding the handler |
| DeviceSelection.TeardownThenStep | spotify-clonehero-next/lib/hooks/useMidiInput.ts:88-119 | with access present, the access effect's cleanup followed by the selection effect ends where the selection effect alone would |
| DeviceSelection.Teardown | spotify-clonehero-next/lib/hooks/useMidiInput.ts:88-92 | unmounting removes the current input's handler, so no input holds it, and keeps the reference |
| MidiInput.Delivered | spotify-clonehero-next/lib/hooks/useMidiInput.ts:105-110 | only an input holding the handler is heard; what it yields comes from a message with a Note On status byte and carries its note and positive velocity; on an input holding the handler every Note On with non-zero velocity is heard |
| MidiInput.Apply | spotify-clonehero-next/lib/hooks/useMidiInput.ts:75-119 | a message leaves the selection alone, and one from an input without the handler changes nothing; other events leave the last note alone; a port change installs the input map and its device list; choosing a non-empty id makes it the selection; a message the hook delivers from the input holding the handler replaces the last note with its decoded record, and one it does not deliver changes nothing |
| MidiInput.MountedValid | spotify-clonehero-next/lib/hooks/useMidiInput.ts:17-25 | the mounted state (nothing listed, selected, attached or heard) satisfies the hook invariant |
| MidiInput.ApplyValid | spotify-clonehero-next/lib/hooks/useMidiInput.ts:75-119 | every event keeps the hook invariant: at most one listener; a current input is the selected existing one and holds the handler; a selected existing input is current; the device list matches the input map; the last note is a positive-velocity Note On |
| MidiInput.AtMostOneAttached | spotify-clonehero-next/lib/hooks/useMidiInput.ts:96-119 | in a valid hook at most one input holds the handler |
| MidiInput.HeardOnlyFromSelected | spotify-clonehero-next/lib/hooks/useMidiInput.ts:105-110 | in a valid hook a message is heard only from the selected input, which is the current one |
| MidiInput.SelectedIsHeard | spotify-clonehero-next/lib/hooks/useMidiInput.ts:105-110 | in a valid hook a selected id that names an existing input is current and holds the handler, so every message on it is decoded as the hook's handler does |
| MidiInput.UnplugKeepsStaleSelection | spotify-clonehero-next/lib/hooks/useMidiInput.ts:79-81 | when a hot-plug change removes the selected input, its handler is dropped, no input is current and no other input is selected in its place |
| MidiTestPage.PushLog | spotify-clonehero-next/app/midi-test/page.tsx:20 | the new log has length min(old + 1, 20), starts with the new note, and continues with a prefix of the old log |
| MidiTestPage.Light | spotify-clonehero-next/app/midi-test/page.tsx:24-28 | the category becomes lit and every other member is unchanged |
| MidiTestPage.Unlight | spotify-clonehero-next/app/midi-test/page.tsx:32-36 | the category becomes unlit and every other member is unchanged |
| MidiTestPage.OnLastNote | spotify-clonehero-next/app/midi-test/page.tsx:18-40 | without a last note nothing changes; a note is always logged; a mapped note lights its category and queues its timer; an unmapped one leaves lit set and timers alone; every lit category keeps a pending timer |
| MidiTestPage.FireTimer | spotify-clonehero-next/app/midi-test/page.tsx:31-37 | the oldest timer unlights its category, leaves the rest of the lit set and the log alone, and every lit category keeps a pending timer |
| MidiTestPage.EarlierTimerCutsLaterHit | spotify-clonehero-next/app/midi-test/page.tsx:22-37 | two hits on one category then the first timer leave the category unlit while the second hit's timer is still pending |
| MidiTestPage.FiringAllUnlightsAll | spotify-clonehero-next/app/midi-test/page.tsx:31-37 | when every lit category has a pending timer, firing all pending timers leaves no drum lit, so no highlight lasts indefinitely |
| MidiTestPage.LogKeepsNewest | spotify-clonehero-next/app/midi-test/page.tsx:20 | after any run of notes the log is the newest 20 of those notes, latest first, followed by the earlier log |
| MidiTestPage.Lit | spotify-clonehero-next/app/midi-test/page.tsx:73-150 | the element that shows category i is lit exactly when i's name is in the lit set; the pedal hi-hat is lit exactly when the set holds `pedal-hihat` or `hihat-pedal`, neither of which is a category name |
| MidiTestPage.ElementShowsCategory | spotify-clonehero-next/app/midi-test/page.tsx:73-142 | each category's element is lit exactly when the category is lit, and no two categories share an element |
| MidiTestPage.LitOnlyForCategories | spotify-clonehero-next/app/midi-test/page.tsx:73-150 | when only category names are lit, an element is lit exactly when a category it shows is lit, and the pedal hi-hat is never lit |
| MidiTestPage.UpperNameIsCaption | spotify-clonehero-next/app/midi-test/page.tsx:172 | upper-casing a category name gives its capitalised caption |
| MidiTestPage.RowLabel | spotify-clonehero-next/app/midi-test/page.tsx:162-172 | a row shows the capitalised category of its note, and shows `UNKNOWN` exactly when the note has no category |
| MidiTestSession.Apply | spotify-clonehero-next/app/midi-test/page.tsx:18-40 | the page's effect runs exactly when the hook emits a new last note: a message the hook does not emit changes nothing, an emitted one becomes the last note and is handed to the page effect, other hook events leave the page alone; a firing timer is the page's oldest timer callback: it removes that timer's category from the lit set and drops the timer, and leaves the hook and the log alone |
| MidiTestSession.ApplyValid | spotify-clonehero-next/app/midi-test/page.tsx:18-40 | every event keeps the session invariant: hook invariant, at most 20 logged positive-velocity Note Ons with the newest equal to the hook's last note, every lit name a category with a pending timer |
| MidiTestSession.Run | spotify-clonehero-next/app/midi-test/page.tsx:18-40 | every state reachable from mounting satisfies the session invariant |
| MidiTestSession.ReachableOneListener | spotify-clonehero-next/lib/hooks/useMidiInput.ts:96-119 | in every reachable state at most one input holds the handler |
| MidiTestSession.ReachablePage | spotify-clonehero-next/app/midi-test/page.tsx:18-150 | in every reachable state the log has at most 20 positive-velocity entries, its head is the hook's last note, and the pedal hi-hat is dark |
| MidiTestSession.WithoutAccessNothingHappens | spotify-clonehero-next/lib/hooks/useMidiInput.ts:46-97 | if access is never granted, no device is listed, no input holds the handler, and nothing is heard, logged or lit |
| MidiTestSession.HitIsShown | spotify-clonehero-next/app/midi-test/page.tsx:18-28 | a Note On with positive velocity on the input holding the handler becomes the log's head and the last note, and lights its category's element when the note maps |

## Left out

- Platform access: the capability probe, the asynchronous `requestMIDIAccess` call and its error strings are not modelled (`lib/hooks/useMidiInput.ts:66-87`). Granting access and hot-plug changes are both the `PortsChanged` event. A missing capability is a session without that event.
- React scheduling: effects run synchronously after the event that changes their dependencies. Batching of several messages into one render is not modelled; a batch would show the page only the last of them.
- The access effect depends on `updateDevices`, which changes identity with the selected id. Each selection change therefore runs that effect's cleanup before the selection effect and re-requests access. `DeviceSelection.TeardownThenStep` shows the cleanup makes no difference to where the selection effect ends. When the re-request resolves, the device list is rebuilt and the effect runs again on a settled state, which `DeviceSelection.SettleIsFixedPoint` shows changes nothing. The re-request itself is not modelled.
- Timing: real timer delays and timestamps are not modelled. Timestamps are opaque integers, and timers are events in firing order.
- The empty-branch check at the end of `updateDevices` does nothing and is omitted (`lib/hooks/useMidiInput.ts:59-63`).
- Presentation: element positions, colours, sizes, the per-row note and velocity text and the "Waiting for input..." placeholder are not modelled. The connection-status dialog and the sheet-music overlay are not part of this model.
- `DrumNoteInstrument` is declared in a file that is not part of this model. `Instrument` holds only the eight categories the table uses.
- The input map is a sequence of ports, which could hold two ports with the same id; the platform's map keys are unique. No property depends on this, so uniqueness is not imposed.
- MidiTestPage.ToUpper: models `toUpperCase` on ASCII only; the full Unicode case mapping (where `ß` becomes `SS`) is not modelled, because the page only ever upper-cases the eight ASCII category names (`MidiTestPage.UpperNameIsCaption`).
- Data-byte range: note and velocity are bytes 0..255, as the platform delivers them. The source does not restrict them to the 0..127 range of MIDI data bytes, and neither does the model.

=== FILE: device_list.dfy ===
/**
 * The device list the hook exposes: one entry per input port of the access
 * object, in the input map's iteration order.
 */
module DeviceList {
  import opened Wrappers
  import Js

  /** An input port as the platform describes it; name and manufacturer may be missing. */
  datatype Port = Port(id: string, name: Option<string>, manufacturer: Option<string>)

  /** A device entry as the hook exposes it. */
  datatype Device = Device(id: string, name: string, manufacturer: Option<string>)

  const UnknownDeviceName := "Unknown Device"

  /** The ids of the ports, in iteration order. */
  function PortIds(inputs: seq<Port>): (ids: seq<string>)
    ensures |ids| == |inputs|
    ensures forall k :: 0 <= k < |inputs| ==> ids[k] == inputs[k].id
  {
    seq(|inputs|, k requires 0 <= k < |inputs| => inputs[k].id)
  }

  /** The entry for one port: `input.name || 'Unknown Device'` for the name, id and manufacturer copied. */
  function DeviceOf(p: Port): (d: Device)
    ensures d.id == p.id && d.manufacturer == p.manufacturer
    ensures d.name != ""
    ensures Js.Truthy(p.name) ==> d.name == p.name.value
    ensures !Js.Truthy(p.name) ==> d.name == UnknownDeviceName
  {
    Device(p.id, Js.Or(p.name, UnknownDeviceName), p.manufacturer)
  }

  /** The device list for a given input map. */
  function DevicesOf(inputs: seq<Port>): (ds: seq<Device>)
    ensures |ds| == |inputs|
    ensures forall k :: 0 <= k < |inputs| ==> ds[k] == DeviceOf(inputs[k])
  {
    seq(|inputs|, k requires 0 <= k < |inputs| => DeviceOf(inputs[k]))
  }

  /**
   * `updateDevices`: with no access object the list is left as it is;
   * otherwise every input is visited in order and its entry appended.
   */
  method UpdateDevices(access: Option<seq<Port>>, devices: seq<Device>) returns (r: seq<Device>)
    ensures access.None? ==> r == devices
    ensures access.Some? ==> r == DevicesOf(access.value)
  {
    if access.None? {
      return devices;
    }
    var inputs := access.value;
    r := [];
    var k := 0;
    while k < |inputs|
      invariant 0 <= k <= |inputs|
      invariant |r| == k
      invariant forall j :: 0 <= j < k ==> r[j] == DeviceOf(inputs[j])
    {
      r := r + [DeviceOf(inputs[k])];
      k := k + 1;
    }
  }
}

=== FILE: device_selection.dfy ===
/**
 * The hook's device-selection effect: it detaches the handler from the
 * previous input, attaches it to the selected input, or auto-selects the
 * first input when nothing is selected.
 */
module DeviceSelection {
  import opened Wrappers
  import Js
  import opened DeviceList

  /** What the selection effect reads and writes. */
  datatype Selection = Selection(
    access: Option<seq<Port>>,  // the access object's input map, once access is granted
    devices: seq<Device>,       // the exposed device list
    selected: Option<string>,   // the selected device id
    current: Option<string>,    // id of the input the current-input reference points at
    attached: set<string>)      // ids of the inputs whose message handler is the hook's

  /** The ids the current-input reference holds: none or one. */
  function Held(current: Option<string>): set<string> {
    if current.Some? then {current.value} else {}
  }

  /** Only the input the reference points at may carry the handler. */
  predicate AtMostOneListener(s: Selection) {
    s.attached <= Held(s.current)
  }

  /** Clearing the previous input: its handler is removed and the reference dropped. */
  function Detach(s: Selection): (r: Selection)
    ensures r.current.None?
    ensures r.attached == s.attached - Held(s.current)
    ensures s.current.Some? ==> s.current.value !in r.attached
    ensures r.access == s.access && r.devices == s.devices && r.selected == s.selected
  {
    if s.current.Some? then s.(attached := s.attached - {s.current.value}, current := None) else s
  }

  /** One run of the selection effect. */
  function Step(s: Selection): (r: Selection)
    ensures s.access.None? ==> r == s
    ensures r.access == s.access && r.devices == s.devices
    // the previous input's handler goes; only the new current input can gain one
    ensures s.access.Some? ==> s.attached - Held(s.current) <= r.attached <= (s.attached - Held(s.current)) + Held(r.current)
    ensures s.access.Some? && s.current.Some? && r.current != s.current ==> s.current.value !in r.attached
    ensures AtMostOneListener(s) ==> AtMostOneListener(r)
    // a selected id that names an input gets the handler; an unknown one leaves no input current
    ensures s.access.Some? && Js.Truthy(s.selected) ==> r.selected == s.selected
    ensures (s.access.Some? && Js.Truthy(s.selected) && s.selected.value in PortIds(s.access.value))
      ==> r.current == s.selected && s.selected.value in r.attached
    ensures (s.access.Some? && Js.Truthy(s.selected) && s.selected.value !in PortIds(s.access.value))
      ==> r.current.None?
    // with nothing selected, nothing is attached and the first input becomes the selection
    ensures s.access.Some? && !Js.Truthy(s.selected) ==> r.current.None?
    ensures (s.access.Some? && !Js.Truthy(s.selected) && |s.devices| > 0 && |s.access.value| > 0)
      ==> r.selected == Some(s.access.value[0].id)
    ensures (!Js.Truthy(s.selected) && (|s.devices| == 0 || s.access.None? || |s.access.value| == 0))
      ==> r.selected == s.selected
  {
    if s.access.None? then s
    else
      var inputs := s.access.value;
      var d := Detach(s);
      if Js.Truthy(s.selected) then
        var id := s.selected.value;
        if id in PortIds(inputs) then d.(attached := d.attached + {id}, current := Some(id))
        else d
      else if |s.devices| > 0 && |inputs| > 0 then
        d.(selected := Some(inputs[0].id))
      else
        d
  }

  /** Re-running the effect when the selection did not change changes nothing. */
  lemma StepIdempotent(s: Selection)
    requires Step(s).selected == s.selected
    ensures Step(Step(s)) == Step(s)
  {
  }

  /**
   * The effect runs once, and once more when that run changed the
   * selection (the selected id is one of its dependencies).
   */
  function Settle(s: Selection): (r: Selection)
    ensures r.access == s.access && r.devices == s.devices
    ensures AtMostOneListener(s) ==> AtMostOneListener(r)
    ensures s.access.Some? && r.current.Some? ==> r.current == r.selected && r.current.value in PortIds(s.access.value)
    ensures s.access.Some? && Js.Truthy(r.selected) && r.selected.value in PortIds(s.access.value)
      ==> r.current == r.selected && r.selected.value in r.attached
  {
    var s1 := Step(s);
    if s1.selected == s.selected then s1 else Step(s1)
  }

  /** Settling reaches a state the effect no longer changes. */
  lemma SettleIsFixedPoint(s: Selection)
    ensures Step(Settle(s)) == Settle(s)
  {
    var s1 := Step(s);
    if s1.selected == s.selected {
      StepIdempotent(s);
    } else {
      StepIdempotent(s1);
    }
  }

  /**
   * With nothing selected and the device list built from the inputs,
   * settling selects the first device and, when its id is non-empty, makes
   * it the only input holding the handler.
   */
  lemma AutoSelectsFirstDevice(s: Selection)
    requires s.access.Some? && s.devices == DevicesOf(s.access.value) && |s.devices| > 0
    requires !Js.Truthy(s.selected)
    requires AtMostOneListener(s)
    ensures Settle(s).selected == Some(s.devices[0].id)
    ensures s.devices[0].id != "" ==> Settle(s).current == Some(s.devices[0].id)
    ensures s.devices[0].id != "" ==> Settle(s).attached == {s.devices[0].id}
  {
  }

  /**
   * Selecting an id that names no input drops the previous input's
   * handler: afterwards no input holds it.
   */
  lemma UnknownSelectionDetaches(s: Selection, id: string)
    requires s.access.Some? && id != "" && id !in PortIds(s.access.value)
    requires AtMostOneListener(s)
    ensures Settle(s.(selected := Some(id))).current == None
    ensures Settle(s.(selected := Some(id))).attached == {}
  {
  }

  /**
   * A selection change also re-runs the access effect, whose cleanup comes
   * first; the selection effect that follows ends where it would have
   * without that cleanup.
   */
  lemma TeardownThenStep(s: Selection)
    requires s.access.Some?
    ensures Step(Teardown(s)) == Step(s)
  {
  }

  /** The access effect's cleanup: the current input's handler is removed; the reference is kept. */
  function Teardown(s: Selection): (r: Selection)
    ensures s.current.Some? ==> s.current.value !in r.attached
    ensures r.attached <= s.attached
    ensures AtMostOneListener(s) ==> r.attached == {}
    ensures r.current == s.current && r.selected == s.selected && r.access == s.access && r.devices == s.devices
  {
    s.(attached := s.attached - Held(s.current))
  }
}

=== FILE: midi_decode.dfy ===
/**
 * Decoding of the raw bytes of a MIDI message event into the hook's
 * last-note record. Follows the Channel Voice Messages rules of the MIDI 1.0
 * Detailed Specification for Note On and Note Off, including the convention
 * that a Note On with velocity 0 is a Note Off.
 */
module MidiDecode {
  import opened Wrappers

  /** One element of the Uint8Array a message event carries. */
  type Byte = b: int | 0 <= b < 0x100

  const NoteOffCommand := 8
  const NoteOnCommand := 9

  /** The decoded record the hook exposes as its last note. */
  datatype MidiMessage = MidiMessage(command: int, note: int, velocity: int, timestamp: int)

  /**
   * `status >> 4`. A missing status byte is undefined in the source, and
   * shifting undefined yields 0.
   */
  function Command(data: seq<Byte>): (c: int)
    ensures 0 <= c < 16
    ensures |data| > 0 ==> 16 * c <= data[0] < 16 * c + 16
    ensures |data| == 0 ==> c == 0
  {
    if |data| == 0 then 0 else data[0] / 16
  }

  /**
   * The record a message event yields, if any: a Note On whose velocity is
   * present and positive. Bytes after the third are ignored; a missing
   * velocity is undefined and `undefined > 0` is false.
   */
  function Decode(data: seq<Byte>, timestamp: int): (r: Option<MidiMessage>)
    ensures r.Some? <==> |data| >= 3 && 0x90 <= data[0] <= 0x9F && data[2] != 0
    ensures r.Some? ==> r.value == MidiMessage(NoteOnCommand, data[1], data[2], timestamp)
  {
    var command := Command(data);
    if command == NoteOnCommand && |data| >= 3 && data[2] > 0 then
      Some(MidiMessage(command, data[1], data[2], timestamp))
    else
      None
  }

  /**
   * The hook's handler: the last note is replaced by the decoded record
   * when there is one and otherwise kept.
   */
  function OnMidiMessage(lastNote: Option<MidiMessage>, data: seq<Byte>, timestamp: int): (r: Option<MidiMessage>)
    ensures r != lastNote ==> r.Some? && r.value.command == NoteOnCommand && r.value.velocity > 0
    ensures r != lastNote ==> |data| >= 3 && 0x90 <= data[0] <= 0x9F
    ensures r != lastNote ==> r.value.note == data[1] && r.value.velocity == data[2]
    ensures |data| >= 3 && 0x90 <= data[0] <= 0x9F && data[2] != 0
      ==> r == Some(MidiMessage(NoteOnCommand, data[1], data[2], timestamp))
    ensures r != lastNote ==> r.value.timestamp == timestamp
    ensures |data| < 3 ==> r == lastNote
    ensures |data| > 0 && Command(data) == NoteOffCommand ==> r == lastNote
    ensures |data| >= 3 && data[2] == 0 ==> r == lastNote
  {
    match Decode(data, timestamp)
    case Some(m) => Some(m)
    case None => lastNote
  }

  /** The three bytes of a Note On on `channel` (0..15). */
  function NoteOn(channel: int, note: Byte, velocity: Byte): (data: seq<Byte>)
    requires 0 <= channel < 16
  {
    [0x90 + channel, note, velocity]
  }

  /** The three bytes of a Note Off on `channel` (0..15). */
  function NoteOff(channel: int, note: Byte, velocity: Byte): (data: seq<Byte>)
    requires 0 <= channel < 16
  {
    [0x80 + channel, note, velocity]
  }

  /** Decoding an encoded Note On gives back its note and velocity exactly when the velocity is positive. */
  lemma DecodeNoteOn(channel: int, note: Byte, velocity: Byte, timestamp: int)
    requires 0 <= channel < 16
    ensures velocity > 0 ==> Decode(NoteOn(channel, note, velocity), timestamp)
                              == Some(MidiMessage(NoteOnCommand, note, velocity, timestamp))
    ensures velocity == 0 ==> Decode(NoteOn(channel, note, velocity), timestamp) == None
  {
  }

  /** A Note Off never decodes, whatever its velocity and whatever follows it. */
  lemma NoteOffNeverDecodes(channel: int, note: Byte, velocity: Byte, rest: seq<Byte>, timestamp: int)
    requires 0 <= channel < 16
    ensures Decode(NoteOff(channel, note, velocity) + rest, timestamp) == None
  {
  }

  /** Every decoded record came from a Note On on some channel carrying its note and velocity. */
  lemma DecodeInverse(data: seq<Byte>, timestamp: int)
    requires Decode(data, timestamp).Some?
    ensures var m := Decode(data, timestamp).value;
      exists channel :: 0 <= channel < 16 && data[..3] == NoteOn(channel, m.note, m.velocity)
  {
    var m := Decode(data, timestamp).value;
    var channel := data[0] - 0x90;
    assert data[..3] == NoteOn(channel, m.note, m.velocity);
  }

  /** The channel nibble never affects decoding: status bytes with the same upper nibble decode alike. */
  lemma ChannelIrrelevant(data: seq<Byte>, data': seq<Byte>, timestamp: int)
    requires |data| == |data'| > 0
    requires data[0] / 16 == data'[0] / 16
    requires data[1..] == data'[1..]
    ensures Decode(data, timestamp) == Decode(data', timestamp)
  {
  }
}

=== FILE: midi_input.dfy ===
/**
 * The MIDI input hook as a whole: its device-selection state plus the last
 * decoded note, driven by explicit platform events.
 */
module MidiInput {
  import opened Wrappers
  import Js
  import opened MidiDecode
  import opened DeviceList
  import opened DeviceSelection

  /** The hook's state. */
  datatype Hook = Hook(sel: Selection, lastNote: Option<MidiMessage>)

  /** The state right after mounting: no access yet, nothing listed, selected or heard. */
  const Mounted: Hook := Hook(Selection(None, [], None, None, {}), None)

  /** What the platform and the user do to the hook. */
  datatype HookEvent =
    | PortsChanged(inputs: seq<Port>)                          // access granted, or a hot-plug state change
    | Choose(id: string)                                       // the user selects a device id
    | Message(port: string, data: seq<Byte>, timestamp: int)   // a message event on an input port

  /** The record a message on `port` makes the hook emit: only an input carrying the handler is heard. */
  function Delivered(h: Hook, port: string, data: seq<Byte>, timestamp: int): (r: Option<MidiMessage>)
    ensures port !in h.sel.attached ==> r == None
    ensures r.Some? ==> r.value.command == NoteOnCommand && r.value.velocity > 0 && r.value.timestamp == timestamp
    ensures r.Some? ==> |data| >= 3 && 0x90 <= data[0] <= 0x9F
    ensures r.Some? ==> r.value.note == data[1] && r.value.velocity == data[2]
    ensures port in h.sel.attached && |data| >= 3 && 0x90 <= data[0] <= 0x9F && data[2] != 0
      ==> r == Some(MidiMessage(NoteOnCommand, data[1], data[2], timestamp))
  {
    if port in h.sel.attached then Decode(data, timestamp) else None
  }

  /** The hook's reaction to one event. */
  function Apply(h: Hook, e: HookEvent): (r: Hook)
    ensures e.Message? ==> r.sel == h.sel
    ensures e.Message? && e.port !in h.sel.attached ==> r == h
    ensures !e.Message? ==> r.lastNote == h.lastNote
    ensures e.PortsChanged? ==> r.sel.access == Some(e.inputs) && r.sel.devices == DevicesOf(e.inputs)
    ensures e.Choose? && Js.Truthy(Some(e.id)) ==> r.sel.selected == Some(e.id)
    ensures e.Message?
      ==> var d := Delivered(h, e.port, e.data, e.timestamp);
          && (d.Some? ==> r.lastNote == d)
          && (d.None? ==> r == h)
  {
    match e
    case PortsChanged(inputs) =>
      // the device list is rebuilt as a new array, so the selection effect runs again
      h.(sel := Settle(h.sel.(access := Some(inputs), devices := DevicesOf(inputs))))
    case Choose(id) =>
      // setting the selection to its current value re-renders nothing
      if h.sel.selected == Some(id) then h
      else h.(sel := Settle(h.sel.(selected := Some(id))))
    case Message(port, data, timestamp) =>
      h.(lastNote := if port in h.sel.attached then OnMidiMessage(h.lastNote, data, timestamp) else h.lastNote)
  }

  /** What holds of the hook after any sequence of events. */
  predicate Valid(h: Hook) {
    var s := h.sel;
    && AtMostOneListener(s)
    && (s.current.Some? ==> s.access.Some? && s.current == s.selected && s.current.value in PortIds(s.access.value))
    && (s.current.Some? ==> s.current.value in s.attached)
    && (s.access.Some? && Js.Truthy(s.selected) && s.selected.value in PortIds(s.access.value) ==> s.current == s.selected)
    && (s.access.None? ==> s.devices == [] && s.current.None?)
    && (s.access.Some? ==> s.devices == DevicesOf(s.access.value))
    && (h.lastNote.Some? ==> h.lastNote.value.command == NoteOnCommand && h.lastNote.value.velocity > 0)
  }

  lemma MountedValid()
    ensures Valid(Mounted)
  {
  }

  /** Every event keeps the hook valid. */
  lemma ApplyValid(h: Hook, e: HookEvent)
    requires Valid(h)
    ensures Valid(Apply(h, e))
  {
  }

  /** In a valid hook at most one input carries the handler. */
  lemma AtMostOneAttached(h: Hook)
    requires Valid(h)
    ensures |h.sel.attached| <= 1
  {
    if h.sel.current.Some? {
      assert h.sel.attached == {h.sel.current.value};
    } else {
      assert h.sel.attached == {};
    }
  }

  /** In a valid hook a message is heard only from the selected input, which is the current one. */
  lemma HeardOnlyFromSelected(h: Hook, port: string, data: seq<Byte>, timestamp: int)
    requires Valid(h)
    ensures Delivered(h, port, data, timestamp).Some? ==> h.sel.selected == Some(port) && h.sel.current == Some(port)
  {
  }

  /**
   * In a valid hook the selected input, when it exists, is listened to: a
   * Note On with positive velocity on it is heard.
   */
  lemma SelectedIsHeard(h: Hook, data: seq<Byte>, timestamp: int)
    requires Valid(h) && h.sel.access.Some? && Js.Truthy(h.sel.selected)
    requires h.sel.selected.value in PortIds(h.sel.access.value)
    ensures h.sel.current == h.sel.selected && h.sel.selected.value in h.sel.attached
    ensures Delivered(h, h.sel.selected.value, data, timestamp) == Decode(data, timestamp)
  {
  }

  /**
   * When a hot-plug change removes the selected input, its handler is
   * dropped and no input is current, but the stale selection is kept: no
   * other input is selected in its place.
   */
  lemma UnplugKeepsStaleSelection(h: Hook, inputs: seq<Port>)
    requires Valid(h) && Js.Truthy(h.sel.selected) && h.sel.selected.value !in PortIds(inputs)
    ensures Apply(h, PortsChanged(inputs)).sel.selected == h.sel.selected
    ensures Apply(h, PortsChanged(inputs)).sel.current == None
    ensures Apply(h, PortsChanged(inputs)).sel.attached == {}
  {
  }
}

=== FILE: midi_mapping.dfy ===
/**
 * The note-number to drum-category lookup table: an approximation of the
 * Percussion Key Map of the General MIDI System Level 1 specification,
 * folded onto eight drum categories.
 */
module MidiMapping {
  import opened Wrappers
  import Js

  /** The eight drum categories the table produces. */
  datatype Instrument = Kick | Snare | FloorTom | MidTom | HighTom | HiHat | Crash | Ride

  /** The category's string form, as the rest of the program sees it. */
  function Name(i: Instrument): string {
    match i
    case Kick => "kick"
    case Snare => "snare"
    case FloorTom => "floor-tom"
    case MidTom => "mid-tom"
    case HighTom => "high-tom"
    case HiHat => "hihat"
    case Crash => "crash"
    case Ride => "ride"
  }

  /** Strings that are the name of some category. */
  predicate IsCategoryName(s: string) {
    exists i: Instrument :: Name(i) == s
  }

  /** The table, entry by entry. */
  const DrumMap: map<int, Instrument> := map[
    35 := Kick,      // Acoustic Bass Drum
    36 := Kick,      // Bass Drum 1
    38 := Snare,     // Acoustic Snare
    40 := Snare,     // Electric Snare
    37 := Snare,     // Side Stick
    41 := FloorTom,  // Low Floor Tom
    43 := FloorTom,  // High Floor Tom
    45 := MidTom,    // Low Tom
    47 := MidTom,    // Low-Mid Tom
    48 := HighTom,   // Hi-Mid Tom
    50 := HighTom,   // High Tom
    42 := HiHat,     // Closed Hi Hat
    44 := HiHat,     // Pedal Hi Hat
    46 := HiHat,     // Open Hi Hat
    49 := Crash,     // Crash Cymbal 1
    57 := Crash,     // Crash Cymbal 2
    51 := Ride,      // Ride Cymbal 1
    59 := Ride,      // Ride Cymbal 2
    52 := Ride,      // Chinese Cymbal
    53 := Ride,      // Ride Bell
    55 := Crash      // Splash Cymbal
  ]

  /**
   * Reference definition, category by category: the General MIDI
   * percussion keys that fold onto each category.
   */
  function NotesOf(i: Instrument): set<int> {
    match i
    case Kick => {35, 36}
    case Snare => {37, 38, 40}
    case FloorTom => {41, 43}
    case MidTom => {45, 47}
    case HighTom => {48, 50}
    case HiHat => {42, 44, 46}
    case Crash => {49, 55, 57}
    case Ride => {51, 52, 53, 59}
  }

  /**
   * `MIDI_DRUM_MAP[note] || null`: the table entry when the key is present
   * and its name is truthy, otherwise no category.
   */
  function InstrumentFromMidi(note: int): (r: Option<Instrument>)
    ensures forall i {:trigger NotesOf(i)} :: r == Some(i) <==> note in NotesOf(i)
    ensures r.None? <==> note !in DrumMap
    ensures r.Some? ==> 35 <= note <= 59
  {
    var entry := if note in DrumMap then Some(DrumMap[note]) else None;
    if entry.Some? && Js.Truthy(Some(Name(entry.value))) then entry else None
  }

  /** Every category name is a non-empty string, so the `|| null` never discards an entry. */
  lemma NamesAreTruthy(i: Instrument)
    ensures Js.Truthy(Some(Name(i)))
  {
  }

  /** Distinct categories have distinct names. */
  lemma NameInjective(i: Instrument, j: Instrument)
    ensures Name(i) == Name(j) <==> i == j
  {
  }

  /** The General MIDI pedal hi-hat key folds into `hihat`; no category is named like a pedal hi-hat. */
  lemma NoPedalHiHatCategory()
    ensures InstrumentFromMidi(44) == Some(HiHat)
    ensures !IsCategoryName("pedal-hihat") && !IsCategoryName("hihat-pedal")
  {
  }

  /** Notes outside 35..59 and the gaps 39, 54, 56, 58 have no category. */
  lemma UnmappedNotes(note: int)
    requires note < 35 || note > 59 || note == 39 || note == 54 || note == 56 || note == 58
    ensures InstrumentFromMidi(note) == None
  {
  }

  /** The 21 keys of the table, in ascending order. */
  const MappedNotes: seq<int> :=
    [35, 36, 37, 38, 40, 41, 42, 43, 44, 45, 46, 47, 48, 49, 50, 51, 52, 53, 55, 57, 59]

  /** The table's keys are exactly the union of the reference sets. */
  lemma TableKeys()
    ensures DrumMap.Keys == NotesOf(Kick) + NotesOf(Snare) + NotesOf(FloorTom) + NotesOf(MidTom)
                          + NotesOf(HighTom) + NotesOf(HiHat) + NotesOf(Crash) + NotesOf(Ride)
    ensures forall n :: n in DrumMap <==> n in MappedNotes
  {
  }

  /** The reference sets do not overlap, so each mapped note has one category. */
  lemma CategoriesDisjoint(i: Instrument, j: Instrument)
    requires i != j
    ensures NotesOf(i) !! NotesOf(j)
  {
  }

  /** The elements of a sequence. */
  function Elements(s: seq<int>): set<int> {
    set k | 0 <= k < |s| :: s[k]
  }

  /** A sequence in which every entry is below the next one. */
  predicate Increasing(s: seq<int>) {
    forall k :: 0 < k < |s| ==> s[k - 1] < s[k]
  }

  /** An increasing sequence has as many distinct elements as entries, the last being the largest. */
  lemma {:induction false} IncreasingCard(s: seq<int>)
    requires Increasing(s)
    ensures |Elements(s)| == |s|
    ensures forall x :: x in Elements(s) ==> x <= s[|s| - 1]
  {
    if |s| > 0 {
      var t := s[..|s| - 1];
      assert Increasing(t);
      IncreasingCard(t);
      assert Elements(s) == Elements(t) + {s[|s| - 1]};
      if |t| > 0 {
        assert s[|s| - 1] !in Elements(t);
      }
    }
  }

  /** Every table key is in the sorted key list, and conversely. */
  lemma KeysInMappedNotes()
    ensures forall n :: n in DrumMap.Keys <==> n in Elements(MappedNotes)
  {
    TableKeys();
    forall n ensures n in DrumMap.Keys <==> n in Elements(MappedNotes) {
      assert n in MappedNotes <==> n in Elements(MappedNotes);
    }
  }

  /** The table's key set, as the elements of the sorted key list. */
  lemma KeysAreMappedNotes()
    ensures DrumMap.Keys == Elements(MappedNotes)
    ensures Increasing(MappedNotes)
  {
    KeysInMappedNotes();
  }

  /** The table has exactly 21 keys. */
  lemma TableSize()
    ensures |DrumMap.Keys| == 21
  {
    KeysAreMappedNotes();
    IncreasingCard(MappedNotes);
  }
}

=== FILE: midi_test_page.dfy ===
/**
 * The MIDI test page: a capped log of received notes, the set of drum
 * categories currently lit, the pending timers that unlight them, and the
 * pure render rules for the drum elements and the log rows.
 */
module MidiTestPage {
  import opened Wrappers
  import Js
  import opened MidiDecode
  import opened MidiMapping

  /** The log keeps the newest 20 notes. */
  const LogCapacity := 20

  /**
   * The page's state: the log (newest first), the lit category names, and
   * the pending timers. Every timer has the same 100 ms delay, so they fire
   * in the order they were set.
   */
  datatype Page = Page(log: seq<MidiMessage>, active: set<string>, timers: seq<string>)

  const Opened: Page := Page([], {}, [])

  /** `[note, ...prev].slice(0, 20)`. */
  function PushLog(log: seq<MidiMessage>, m: MidiMessage): (r: seq<MidiMessage>)
    ensures |r| == if |log| < LogCapacity then |log| + 1 else LogCapacity
    ensures r[0] == m
    ensures r[1..] == log[..|r| - 1]
  {
    var full := [m] + log;
    if |full| <= LogCapacity then full else full[..LogCapacity]
  }

  /** Adding a category name to the lit set. */
  function Light(active: set<string>, name: string): (r: set<string>)
    ensures name in r
    ensures forall x :: x != name ==> (x in r <==> x in active)
  {
    active + {name}
  }

  /** Removing a category name from the lit set. */
  function Unlight(active: set<string>, name: string): (r: set<string>)
    ensures name !in r
    ensures forall x :: x != name ==> (x in r <==> x in active)
  {
    active - {name}
  }

  /** Every lit name still has a pending timer that will unlight it. */
  predicate TimersCover(p: Page) {
    forall a :: a in p.active ==> a in p.timers
  }

  /**
   * The page's effect on the hook's last note: nothing without one;
   * otherwise the note is logged, and a mapped note lights its category
   * and sets a timer to unlight it.
   */
  function OnLastNote(p: Page, lastNote: Option<MidiMessage>): (r: Page)
    ensures lastNote.None? ==> r == p
    ensures lastNote.Some? ==> r.log == PushLog(p.log, lastNote.value)
    ensures lastNote.Some? && InstrumentFromMidi(lastNote.value.note).None?
      ==> r.active == p.active && r.timers == p.timers
    ensures lastNote.Some? && InstrumentFromMidi(lastNote.value.note).Some?
      ==> var name := Name(InstrumentFromMidi(lastNote.value.note).value);
          r.active == Light(p.active, name) && r.timers == p.timers + [name]
    ensures TimersCover(p) ==> TimersCover(r)
  {
    match lastNote
    case None => p
    case Some(m) =>
      var log := PushLog(p.log, m);
      match InstrumentFromMidi(m.note)
      case None => p.(log := log)
      case Some(i) => Page(log, Light(p.active, Name(i)), p.timers + [Name(i)])
  }

  /** The oldest pending timer fires and unlights its category, whatever later hits lit it again. */
  function FireTimer(p: Page): (r: Page)
    ensures |p.timers| == 0 ==> r == p
    ensures |p.timers| > 0 ==> r.active == Unlight(p.active, p.timers[0]) && r.timers == p.timers[1..]
    ensures r.log == p.log
    ensures TimersCover(p) ==> TimersCover(r)
  {
    if |p.timers| == 0 then p
    else
      var name := p.timers[0];
      assert forall a :: a in p.active && a != name && a in p.timers ==> a in p.timers[1..];
      p.(active := Unlight(p.active, name), timers := p.timers[1..])
  }

  /**
   * Two hits on the same category and then the first timer: the category
   * is unlit although the second hit's timer is still pending, because the
   * lit set does not count hits.
   */
  lemma EarlierTimerCutsLaterHit(p: Page, m1: MidiMessage, m2: MidiMessage)
    requires p.timers == []
    requires InstrumentFromMidi(m1.note).Some? && InstrumentFromMidi(m1.note) == InstrumentFromMidi(m2.note)
    ensures var name := Name(InstrumentFromMidi(m1.note).value);
            var q := FireTimer(OnLastNote(OnLastNote(p, Some(m1)), Some(m2)));
            name !in q.active && q.timers == [name]
  {
  }

  /** The page after every pending timer has fired, oldest first. */
  function FireAll(p: Page): (r: Page)
    ensures r.timers == [] && r.log == p.log
    decreases |p.timers|
  {
    if |p.timers| == 0 then p else FireAll(FireTimer(p))
  }

  /** Once every pending timer has fired, no drum is lit: no highlight lasts indefinitely. */
  lemma {:induction false} FiringAllUnlightsAll(p: Page)
    requires TimersCover(p)
    ensures FireAll(p).active == {}
    decreases |p.timers|
  {
    if |p.timers| > 0 {
      FiringAllUnlightsAll(FireTimer(p));
    }
  }

  /** The newest `LogCapacity` entries of `entries`. */
  function Newest(entries: seq<MidiMessage>): (r: seq<MidiMessage>)
    ensures |r| <= LogCapacity
  {
    if |entries| <= LogCapacity then entries else entries[..LogCapacity]
  }

  /** `ms` newest first. */
  function Reverse(ms: seq<MidiMessage>): (r: seq<MidiMessage>)
    ensures |r| == |ms|
    ensures forall k :: 0 <= k < |ms| ==> r[k] == ms[|ms| - 1 - k]
  {
    if |ms| == 0 then [] else [ms[|ms| - 1]] + Reverse(ms[..|ms| - 1])
  }

  /** The log after notes `ms` arrive in order. */
  function LogAfter(log: seq<MidiMessage>, ms: seq<MidiMessage>): seq<MidiMessage>
  {
    if |ms| == 0 then log else PushLog(LogAfter(log, ms[..|ms| - 1]), ms[|ms| - 1])
  }

  /** Pushing onto a capped log caps the longer list. */
  lemma PushNewest(entries: seq<MidiMessage>, m: MidiMessage)
    ensures PushLog(Newest(entries), m) == Newest([m] + entries)
  {
  }

  /**
   * Starting from a log of at most 20 entries, the log after a run of notes
   * holds the newest 20 of those notes (latest first) followed by the
   * earlier log.
   */
  lemma {:induction false} LogKeepsNewest(log: seq<MidiMessage>, ms: seq<MidiMessage>)
    requires |log| <= LogCapacity
    ensures LogAfter(log, ms) == Newest(Reverse(ms) + log)
  {
    if |ms| == 0 {
      assert Reverse(ms) + log == log;
    } else {
      var init := ms[..|ms| - 1];
      LogKeepsNewest(log, init);
      PushNewest(Reverse(init) + log, ms[|ms| - 1]);
      assert Reverse(ms) == [ms[|ms| - 1]] + Reverse(init);
      assert [ms[|ms| - 1]] + (Reverse(init) + log) == Reverse(ms) + log;
    }
  }

  /** The drum elements of the kit view. */
  datatype DrumElement =
    | CrashCircle | RideCircle | HiHatCircle | HighTomCircle | MidTomCircle
    | LowTomCircle | SnareCircle | KickPedal | HiHatPedal

  /** The two strings the pedal hi-hat element tests; neither is a category name. */
  const PedalHiHatNames: set<string> := {"pedal-hihat", "hihat-pedal"}

  /** Whether an element is drawn lit, by the strings each element tests. */
  predicate Lit(e: DrumElement, active: set<string>)
    ensures forall i :: ElementFor(i) == e ==> (Lit(e, active) <==> Name(i) in active)
    ensures e == HiHatPedal ==> (Lit(e, active) <==> exists a :: a in PedalHiHatNames && a in active)
    ensures e == HiHatPedal && Lit(e, active) ==> exists a :: a in active && !IsCategoryName(a)
  {
    match e
    case CrashCircle => "crash" in active
    case RideCircle => "ride" in active
    case HiHatCircle => "hihat" in active
    case HighTomCircle => "high-tom" in active
    case MidTomCircle => "mid-tom" in active
    case LowTomCircle => "floor-tom" in active
    case SnareCircle => "snare" in active
    case KickPedal => "kick" in active
    case HiHatPedal => "pedal-hihat" in active || "hihat-pedal" in active
  }

  /** The element that shows a category. */
  function ElementFor(i: Instrument): (e: DrumElement)
    ensures e != HiHatPedal
  {
    match i
    case Crash => CrashCircle
    case Ride => RideCircle
    case HiHat => HiHatCircle
    case HighTom => HighTomCircle
    case MidTom => MidTomCircle
    case FloorTom => LowTomCircle
    case Snare => SnareCircle
    case Kick => KickPedal
  }

  /** Each category's element is lit exactly when the category is in the lit set, and no two categories share one. */
  lemma ElementShowsCategory(i: Instrument, j: Instrument, active: set<string>)
    ensures Lit(ElementFor(i), active) <==> Name(i) in active
    ensures ElementFor(i) == ElementFor(j) ==> i == j
  {
  }

  /**
   * When the lit set holds only category names, an element is lit exactly
   * when a category it shows is lit; the pedal hi-hat is never lit.
   */
  lemma LitOnlyForCategories(e: DrumElement, active: set<string>)
    requires forall a :: a in active ==> IsCategoryName(a)
    ensures Lit(e, active) <==> exists i :: ElementFor(i) == e && Name(i) in active
    ensures !Lit(HiHatPedal, active)
  {
  }

  /** `toUpperCase` on one character; the category names only use ASCII. */
  function UpperChar(c: char): (u: char)
    ensures !('a' <= u <= 'z')
  {
    if 'a' <= c <= 'z' then (c as int - 32) as char else c
  }

  /** `toUpperCase` restricted to ASCII: only `a`..`z` change. */
  function ToUpper(s: string): (r: string)
    ensures |r| == |s|
    ensures forall k :: 0 <= k < |s| ==> r[k] == UpperChar(s[k])
  {
    seq(|s|, k requires 0 <= k < |s| => UpperChar(s[k]))
  }

  /** Reference captions: each category's name in capitals. */
  function Caption(i: Instrument): string {
    match i
    case Kick => "KICK"
    case Snare => "SNARE"
    case FloorTom => "FLOOR-TOM"
    case MidTom => "MID-TOM"
    case HighTom => "HIGH-TOM"
    case HiHat => "HIHAT"
    case Crash => "CRASH"
    case Ride => "RIDE"
  }

  /** Upper-casing a category name gives its caption. */
  lemma UpperNameIsCaption(i: Instrument)
    ensures ToUpper(Name(i)) == Caption(i)
  {
  }

  /** A log row's label: `instrument?.toUpperCase() || 'UNKNOWN'`. */
  function RowLabel(m: MidiMessage): (r: string)
    ensures InstrumentFromMidi(m.note).Some? ==> r == Caption(InstrumentFromMidi(m.note).value)
    ensures r == "UNKNOWN" <==> InstrumentFromMidi(m.note).None?
  {
    var instrument := InstrumentFromMidi(m.note);
    if instrument.Some? then
      UpperNameIsCaption(instrument.value);
      Js.Or(Some(ToUpper(Name(instrument.value))), "UNKNOWN")
    else
      Js.Or(None, "UNKNOWN")
  }
}

=== FILE: midi_test_session.dfy ===
/**
 * The test page mounted on the MIDI input hook: the page's effect runs
 * whenever the hook emits a new last note, and highlight timers fire as
 * separate events.
 */
module MidiTestSession {
  import opened Wrappers
  import opened MidiDecode
  import opened MidiMapping
  import MidiInput
  import opened MidiTestPage

  datatype Session = Session(input: MidiInput.Hook, page: Page)

  datatype Event =
    | Input(e: MidiInput.HookEvent)   // a platform or user event reaching the hook
    | TimerFires                      // the oldest pending highlight timer fires

  const Start: Session := Session(MidiInput.Mounted, Opened)

  /** One event: a note the hook emits is also handed to the page's effect. */
  function Apply(s: Session, ev: Event): (r: Session)
    ensures ev.TimerFires? ==> r.input == s.input && r.page == FireTimer(s.page)
    ensures ev.TimerFires? ==> r.page.log == s.page.log
    ensures ev.TimerFires? && |s.page.timers| > 0
      ==> s.page.timers[0] !in r.page.active && r.page.timers == s.page.timers[1..]
    ensures ev.Input? ==> r.input == MidiInput.Apply(s.input, ev.e)
    ensures ev.Input? && !ev.e.Message? ==> r.page == s.page
    ensures ev.Input? && ev.e.Message?
      ==> var d := MidiInput.Delivered(s.input, ev.e.port, ev.e.data, ev.e.timestamp);
          && (d.None? ==> r == s)
          && (d.Some? ==> r.input.lastNote == d && r.page == OnLastNote(s.page, d))
  {
    match ev
    case TimerFires => s.(page := FireTimer(s.page))
    case Input(e) =>
      var emitted := if e.Message? then MidiInput.Delivered(s.input, e.port, e.data, e.timestamp) else None;
      Session(MidiInput.Apply(s.input, e), OnLastNote(s.page, emitted))
  }

  /** What holds in every session state reachable from the start. */
  predicate Valid(s: Session) {
    var log := s.page.log;
    && MidiInput.Valid(s.input)
    && |log| <= LogCapacity
    && (forall k :: 0 <= k < |log| ==> log[k].command == NoteOnCommand && log[k].velocity > 0)
    && (|log| > 0 <==> s.input.lastNote.Some?)
    && (|log| > 0 ==> log[0] == s.input.lastNote.value)
    && TimersCover(s.page)
    && (forall k :: 0 <= k < |s.page.timers| ==> IsCategoryName(s.page.timers[k]))
  }

  /** Every event keeps the session valid. */
  lemma ApplyValid(s: Session, ev: Event)
    requires Valid(s)
    ensures Valid(Apply(s, ev))
  {
  }

  /** The session after a sequence of events, applied from the start in order. */
  function Run(evs: seq<Event>): (s: Session)
    ensures Valid(s)
  {
    if |evs| == 0 then Start
    else
      var prev := Run(evs[..|evs| - 1]);
      ApplyValid(prev, evs[|evs| - 1]);
      Apply(prev, evs[|evs| - 1])
  }

  /** In every reachable state at most one input carries the handler. */
  lemma ReachableOneListener(evs: seq<Event>)
    ensures |Run(evs).input.sel.attached| <= 1
  {
    MidiInput.AtMostOneAttached(Run(evs).input);
  }

  /**
   * In every reachable state the log holds at most 20 decoded Note Ons, the
   * newest being the hook's last note, and the pedal hi-hat is dark.
   */
  lemma ReachablePage(evs: seq<Event>)
    ensures |Run(evs).page.log| <= LogCapacity
    ensures forall k :: 0 <= k < |Run(evs).page.log| ==> Run(evs).page.log[k].velocity > 0
    ensures |Run(evs).page.log| > 0 ==> Run(evs).input.lastNote == Some(Run(evs).page.log[0])
    ensures !Lit(HiHatPedal, Run(evs).page.active)
  {
    var s := Run(evs);
    forall a | a in s.page.active ensures IsCategoryName(a) {
      var k :| 0 <= k < |s.page.timers| && s.page.timers[k] == a;
    }
    LitOnlyForCategories(HiHatPedal, s.page.active);
  }

  /** No event of the sequence hands the hook an input map. */
  predicate NeverGranted(evs: seq<Event>) {
    forall k :: 0 <= k < |evs| ==> !(evs[k].Input? && evs[k].e.PortsChanged?)
  }

  /**
   * Without access (the capability is missing, or access is never
   * granted) no device is ever listed, no input carries the handler, and
   * nothing is logged or lit.
   */
  lemma {:induction false} WithoutAccessNothingHappens(evs: seq<Event>)
    requires NeverGranted(evs)
    ensures Run(evs).input.sel.access.None?
    ensures Run(evs).input.sel.devices == [] && Run(evs).input.sel.attached == {}
    ensures Run(evs).input.lastNote.None? && Run(evs).page.log == []
    ensures Run(evs).page.active == {} && Run(evs).page.timers == []
  {
    if |evs| > 0 {
      var init := evs[..|evs| - 1];
      assert NeverGranted(init) by {
        forall k | 0 <= k < |init| ensures !(init[k].Input? && init[k].e.PortsChanged?) {
          assert init[k] == evs[k];
        }
      }
      WithoutAccessNothingHappens(init);
      assert !(evs[|evs| - 1].Input? && evs[|evs| - 1].e.PortsChanged?);
    }
  }

  /**
   * A Note On with positive velocity on the input holding the handler is
   * logged first and, when its note maps, lights its category's element.
   */
  lemma HitIsShown(s: Session, port: string, data: seq<Byte>, timestamp: int)
    requires Valid(s) && port in s.input.sel.attached
    requires |data| >= 3 && 0x90 <= data[0] <= 0x9F && data[2] != 0
    ensures var r := Apply(s, Input(MidiInput.Message(port, data, timestamp)));
            && r.page.log[0] == MidiMessage(NoteOnCommand, data[1], data[2], timestamp)
            && r.input.lastNote == Some(r.page.log[0])
            && (InstrumentFromMidi(data[1]).Some? ==> Lit(ElementFor(InstrumentFromMidi(data[1]).value), r.page.active))
  {
  }
}

=== FILE: wrappers.dfy ===
/** The optional-value datatype used for the source's `T | null` and `T | undefined`. */
module Wrappers {

  datatype Option<+T> = None | Some(value: T)
}

/**
 * The few JavaScript value rules the source leans on: truthiness of a
 * string-or-missing value and the `||` operator applied to one.
 */
module Js {
  import opened Wrappers

  /** A string-or-undefined value is truthy unless it is missing or empty. */
  predicate Truthy(v: Option<string>) {
    v.Some? && v.value != ""
  }

  /** `v || fallback` where `v` is a string or undefined. */
  function Or(v: Option<string>, fallback: string): (r: string)
    ensures Truthy(v) ==> r == v.value
    ensures !Truthy(v) ==> r == fallback
  {
    if Truthy(v) then v.value else fallback
  }
}
